=== FILE: README.md ===
# Order book reconciliation and reconnect lifecycle, modelled in Dafny

This project models the core of a live cryptocurrency order book viewer:

- **The reconciliation step** (`processOrderbookUpdate`). Each update message is turned into new bid and ask sides. The step checks the sequence number and stamps the incoming levels with the message time. It drops levels whose size is not above zero and merges the rest into the previous side by exact price text. It then sorts each side by numeric price (bids descending, asks ascending) and keeps the best 100 levels.
- **The comparators and depth cap** that the step uses.
- **The connection lifecycle** of the websocket service. It is modelled as a pure transition function over one state record. The record holds the status, the attempt counter, the timer ref, the armed timers, the next timer handle and the manual-disconnect flag. There is one transition per callback: mount, transport connected, subscribed, the four failure events, timer fired, and teardown.
- **A small composition** of the two. Publications go to the book and connection events go to the machine.

Modules, one per file:

| file | module | models |
|---|---|---|
| `types.dfy` | `OrderbookTypes` | `Order`, `OrderEntry`, `OrderbookData`; a price or size is a `Decimal`, its exact text paired with the number `parseFloat` reads from it |
| `constants.dfy` | `OrderbookConstants` | the depth cap (100) and the `ASCENDING`/`DESCENDING` comparators |
| `sorting.dfy` | `LevelSort` | the side-specific stable sort |
| `price_map.dfy` | `PriceMap` | the JavaScript `Map` keyed by price text, as an insertion-ordered sequence of entries |
| `orderbook.dfy` | `OrderbookUpdate` | the reconciliation step |
| `orderbook_properties.dfy` | `OrderbookProperties` | retention, last-write-wins, zero sizes, provenance, idempotence |
| `reconnect.dfy` | `ReconnectMachine` | the connection state machine |
| `reconnect_properties.dfy` | `ReconnectProperties` | its invariants and per-event guarantees |
| `scenarios.dfy` | `Scenarios` | concrete runs worked out in full |
| `app.dfy` | `OrderbookApp` | the hook wired to the service |

Timers are modelled by handle. `timerRef` is the value of `reconnectTimeoutRef`: it keeps the last handle even after that timer fired or was cleared, as the code does. `armed` holds the timers that are still live, each with its delay. "At most one reconnect timer is pending" is therefore an inductive invariant (`Valid`) and not a consequence of a boolean flag.

## Behaviour worth knowing

- **Zero sizes do not delete.** A size-0 entry does not delete its price: the code filters it out before the merge (`useOrderbookData.ts:45`, `:54`), so it never reaches the map and an existing level at that price stays. `NonPositiveEntriesIgnored` and `Retention` state this. `TwoMessageScenario` shows that after `["100.00","0"]` the bid side still holds the 100.00 level.
- **`connected` comes from the transport event.** `connected` is set, and the attempt counter reset, on the client's transport `connected` event (`websocketService.ts:60-63`), not on subscription success: the `subscribed` callback only logs. See `ConnectedResetsAttempts`.
- **Failures after teardown leave the status as it was.** The failure callbacks do nothing beyond logging while the manual flag is set (`:82`, `:91`, `:105`, `:115`). After a stop while connected, the status stays `connected` and does not settle to `disconnected` (`StopWhileConnectedScenario`).
- **Teardown does not stop message delivery.** The publication callback is not gated by the manual flag (`:69-72`). `PublicationNotGated` states that a publication is applied in every connection state.

## Model

| member | source | states |
|---|---|---|
| `OrderbookConstants.Ascending` | src/constants/orderbook.constants.ts:17 | negative exactly when a < b, zero exactly when a = b, positive exactly when a > b |
| `OrderbookConstants.Descending` | src/constants/orderbook.constants.ts:18 | negative exactly when a > b, zero exactly when a = b, positive exactly when a < b |
| `OrderbookConstants.DescendingIsFlippedAscending` | src/constants/orderbook.constants.ts:17-18 | DESCENDING(a, b) = ASCENDING(b, a) |
| `OrderbookConstants.ComparatorsAntisymmetric` | src/constants/orderbook.constants.ts:17-18 | each comparator satisfies C(a, b) = -C(b, a) |
| `LevelSort.Compare` | src/hooks/useOrderbookData.ts:65-83 | the bid comparator (`:65-66`) is negative exactly when the first price is higher and the ask comparator (`:82-83`) exactly when it is lower; it is zero exactly on equal prices |
| `LevelSort.InOrderMeaning` | src/constants/orderbook.constants.ts:9-13 | a side's order puts the higher price first for bids and the lower first for asks; it is total, and two levels that may each precede the other have equal prices |
| `LevelSort.SortLevels` | src/hooks/useOrderbookData.ts:64-67 | the sorted side is a rearrangement of the merged levels (same multiset, same length), in non-increasing price order for bids and non-decreasing for asks |
| `LevelSort.BestPriceFirst` | src/constants/orderbook.constants.ts:9-13 | after sorting, the first ask has the lowest price of all levels and the first bid the highest |
| `PriceMap.Put` | src/hooks/useOrderbookData.ts:61 | after `set`, looking up the level's key gives the new level and every other key gives what it gave before; a new key is appended at the end, as `Map` insertion order does |
| `PriceMap.PutAll` | src/hooks/useOrderbookData.ts:58-61 | after a run of `set` calls, each key holds the last level of the run with that key, or its previous level if the run has none; keys are the union; unique keys stay unique |
| `PriceMap.UniqueMember` | src/hooks/useOrderbookData.ts:64 | in a map with unique keys, a level is among the values exactly when looking up its price gives it |
| `OrderbookUpdate.Stamp` | src/hooks/useOrderbookData.ts:39-44 | every incoming pair becomes a level with the same price and size, stamped with the message time |
| `OrderbookUpdate.KeepPositive` | src/hooks/useOrderbookData.ts:45 | exactly the levels with size above zero are kept, and the last kept level under each key is the last level with that key and a positive size |
| `OrderbookUpdate.LastPositive` | src/hooks/useOrderbookData.ts:39-45 | the last positive level under a key is absent exactly when every level with that key has size ≤ 0 |
| `OrderbookUpdate.Incoming` | src/hooks/useOrderbookData.ts:39-54 | every level a message contributes carries the message time, a size above zero and the price and size of one of its entries; every entry with size above zero contributes its level |
| `OrderbookUpdate.Merge` | src/hooks/useOrderbookData.ts:57-61 | the merged side has unique keys, the union of the keys, and under every key the last incoming level if there is one, else the last previous level |
| `OrderbookUpdate.TopLevels` | src/hooks/useOrderbookData.ts:64-68 | the side is sorted, has min(100, merged size) levels taken from the merged set, and every merged level left out ranks no better than every level kept: it is exactly the best 100 |
| `OrderbookUpdate.UpdateSide` | src/hooks/useOrderbookData.ts:57-71 | one side after an update has at most 100 levels, is sorted in the side's order and has unique price keys |
| `OrderbookUpdate.ProcessOrderbookUpdate` | src/hooks/useOrderbookData.ts:23-91 | the gap flag is set exactly when a previous sequence exists and the new one is not previous + 1; the last sequence becomes the received one and the last update time the message time; both sides are bounded by 100, sorted and keyed uniquely |
| `OrderbookProperties.GapDoesNotBlockUpdate` | src/hooks/useOrderbookData.ts:27-36 | the resulting book does not depend on the last sequence seen, so the update is applied whether or not a gap is flagged |
| `OrderbookProperties.SidesIndependent` | src/hooks/useOrderbookData.ts:57-88 | the bid side of the result depends only on the previous bids, the message's bids and its time, and likewise for asks |
| `OrderbookProperties.PositiveEntries` | src/hooks/useOrderbookData.ts:45 | the positive entries of a message are exactly its entries with size above zero (the filter of `KeepPositive`, over raw entries) |
| `OrderbookProperties.IncomingIsPositiveEntries` | src/hooks/useOrderbookData.ts:39-54 | the levels a message contributes are its positive entries, stamped, in order |
| `OrderbookProperties.NonPositiveEntriesIgnored` | src/hooks/useOrderbookData.ts:39-54 | a side update with the zero and negative entries removed gives the same side: such entries neither insert nor remove anything |
| `OrderbookProperties.Retention` | src/hooks/useOrderbookData.ts:58-68 | a previous level whose price has no positive entry in the message stays in the merge with its old size and timestamp, and stays on the side unless 100 levels that all rank at least as well push it out |
| `OrderbookProperties.LastPositiveEntryWins` | src/hooks/useOrderbookData.ts:58-61 | the last positive entry for a price replaces any earlier entry or previous level with that price: the side holds that entry, stamped with the message time, and no other level with the price |
| `OrderbookProperties.Provenance` | src/hooks/useOrderbookData.ts:39-61 | every level on a side after the update is either a positive entry of the message carrying the message time, or a previous level whose price the message did not set |
| `OrderbookProperties.SideIdempotent` | src/hooks/useOrderbookData.ts:57-71 | applying the same side update twice gives the same side as applying it once, when distinct price texts among the previous levels and the positive entries have distinct numeric prices |
| `OrderbookProperties.BestSelectionUnique` | src/hooks/useOrderbookData.ts:64-68 | two sorted selections of the same length, each holding the best levels of a set with distinct prices, are equal |
| `OrderbookProperties.ApplyTwice` | src/hooks/useOrderbookData.ts:23-91 | delivering the same message twice in a row leaves the book as one delivery left it |
| `Scenarios.SequenceGapScenario` | src/hooks/useOrderbookData.ts:27-36 | after sequence 5, sequence 7 raises the warning and sequence 6 does not; the two results differ only in the recorded last sequence, which is the received one in each case |
| `Scenarios.TwoMessageScenario` | src/hooks/useOrderbookData.ts:39-88 | one bid and one ask after the first message; after a zero-size bid and a new ask, the bid is still there and the asks are in ascending order |
| `ReconnectMachine.Connect` | src/services/websocketService.ts:49-50 | connecting sets the status to `connecting` and changes nothing else of the machine's state |
| `ReconnectMachine.OnFailure` | src/services/websocketService.ts:79-119 | with the manual flag set a failure changes nothing; otherwise the status becomes `disconnected`, the attempts are kept, the timer in the ref is cleared, and the ref holds a fresh timer armed for 5000 ms; every other armed timer keeps its delay |
| `ReconnectMachine.ScheduleReconnect` | src/services/websocketService.ts:125-146 | with the manual flag set nothing changes; otherwise the timer in the ref is cleared and exactly one new timer is armed, for 5000 ms, under a fresh handle that the ref now holds; every other armed timer keeps its delay, and status, attempts and the flag are unchanged |
| `ReconnectMachine.ClearRefTimer` | src/services/websocketService.ts:161-164 | clearing disarms exactly the timer in the ref; every timer left armed keeps its delay, and nothing else changes |
| `ReconnectMachine.Step` | src/services/websocketService.ts:49-171 | every transition keeps the state invariant; only mount clears the manual flag and only teardown sets it |
| `ReconnectProperties.AtMostOneTimer` | src/services/websocketService.ts:137-145 | a valid state has at most one armed reconnect timer |
| `ReconnectProperties.RunStaysValid` | src/services/websocketService.ts:124-146 | every run of events from a valid state ends in a valid state with at most one timer pending |
| `ReconnectProperties.ReachableStatesValid` | src/services/websocketService.ts:25-46 | every state reachable from the first render is valid and has at most one pending timer |
| `ReconnectProperties.MountConnects` | src/services/websocketService.ts:149-153 | mount clears the manual flag and the status becomes `connecting` |
| `ReconnectProperties.ConnectedResetsAttempts` | src/services/websocketService.ts:60-63 | the transport `connected` event sets `connected` and the attempt counter to 0, whatever happens to the subscription |
| `ReconnectProperties.FailureSchedulesOneReconnect` | src/services/websocketService.ts:79-119 | a failure event while not manual sets `disconnected`, cancels any pending timer and leaves exactly one timer set for 5000 ms whatever the attempt count |
| `ReconnectProperties.FailureAfterManualIsIgnored` | src/services/websocketService.ts:79-119 | a failure event while manual changes nothing, neither the status nor the timers |
| `ReconnectProperties.ManualFlagGatesReconnect` | src/services/websocketService.ts:125-130 | after a failure event a reconnect is pending exactly when the manual flag was clear |
| `ReconnectProperties.TimerFiresReconnect` | src/services/websocketService.ts:142-145 | a pending timer that fires adds exactly 1 to the attempts, sets `connecting` and leaves no timer pending |
| `ReconnectProperties.ClearedTimerNeverFires` | src/services/websocketService.ts:136-139 | a timer that was cleared or has already fired changes nothing |
| `ReconnectProperties.TeardownCancels` | src/services/websocketService.ts:157-170 | teardown sets the manual flag and cancels the pending timer, and leaves status and attempts as they were |
| `ReconnectProperties.TeardownIdempotent` | src/services/websocketService.ts:157-170 | a second teardown changes nothing |
| `ReconnectProperties.NoReconnectAfterTeardown` | src/services/websocketService.ts:157-170 | after teardown, and until the next mount, no timer is ever pending, attempts never grow and the status never turns to `connecting` |
| `Scenarios.DisconnectThenTeardownScenario` | src/services/websocketService.ts:101-109 | a disconnect while connected sets one 5000 ms timer; teardown before it fires cancels it, and its firing then starts no connect |
| `Scenarios.StopWhileConnectedScenario` | src/services/websocketService.ts:157-170 | after a stop while connected, a failure event leaves the status `connected` and schedules nothing |
| `OrderbookApp.AppStep` | src/hooks/useOrderbookData.ts:94-99 | a connection event steps the machine and leaves the book; a publication leaves the connection and replaces the book by the result of the reconciliation step, which records the message's sequence and time, with both sides bounded by 100 |
| `OrderbookApp.PublicationNotGated` | src/services/websocketService.ts:69-72 | in every connection state, including after teardown, a publication makes the book the result of the reconciliation step on it, and leaves the connection alone |
| `OrderbookApp.ConnectionEventsKeepBook` | src/hooks/useOrderbookData.ts:94-99 | connection events never touch the book, so the last snapshot stays during an outage |

## Left out

- `parseFloat`, NaN and floating point: each price and size is a `Decimal`, its text paired with an exact real number. Malformed numbers, and the inconsistent order the `a - b` comparator gives with NaN, are not modelled.
- Sequence numbers as doubles: the gap test `data.sequence !== lastSequenceRef.current + 1` (`useOrderbookData.ts:29`) runs on JavaScript numbers, where the addition is exact only below 2^53 and a sequence may arrive as a non-integer. The model treats every sequence number as an exact, unbounded integer.
- The conversion of the microsecond timestamp to a `Date` (`useOrderbookData.ts:24`): the message timestamp is used as an opaque time.
- The order among levels whose prices compare equal. The model sorts stably from `Map` insertion order, as the runtime does, but no contract depends on that order.
- SideIdempotent: proved only when, among the previous levels and the message's positive entries, distinct price texts have distinct numeric prices (`PricesKeyed`). With ties, the order among tied levels depends on insertion order and the cut at 100 can differ.
- ApplyTwice: the same assumption as SideIdempotent, for both sides.
- Retention: stated for a previous side with unique price keys. Every side the step produces has unique keys (`UpdateSide`), so this covers every reachable book.
- Ill-formed messages. The publication is cast to `OrderbookData` without a check (`websocketService.ts:71`). A message without `bids` throws at `useOrderbookData.ts:39`, and one without `asks` at `:48`. Both throws come after `:36` has recorded the sequence, so the sequence advances while both sides and `lastUpdateTime` stay as they were. Here both fields are mandatory in `OrderbookData`, so that path is not modelled.
- The `market_id` field is carried but never read, as in the code.
- The Centrifuge client: creating instances, `connect()`, `disconnect()`, `subscribe()` and the transport itself. Its callbacks become the events of `ReconnectMachine.Event`. Any event may arrive in any state, which covers callbacks from older client instances that `connect()` never disconnects.
- Real time and the timer queue: a timer's delay is recorded, and its firing is an event that may occur at any moment.
- React's `useState`, `useRef`, `useCallback` and `useEffect` machinery, and all console logging. The lost-packet warning is the `gapDetected` output.
- The presentation component: layout, colours and number formatting.

=== FILE: app.dfy ===
/**
 The hook wired to the service: every publication on the subscribed channel
 is handed, unchanged, to the reconciliation step; connection events never
 touch the book.
 */
module OrderbookApp {
  import opened OrderbookTypes
  import opened OrderbookConstants
  import opened OrderbookUpdate
  import opened ReconnectMachine

  datatype App = App(conn: Connection, book: Book)

  /** A connection event, or a message published on the channel. */
  datatype AppEvent = ConnectionEvent(event: Event) | Publication(data: OrderbookData)

  /** One event: a connection event steps the connection machine, a
      publication is handed to the reconciliation step. */
  function AppStep(a: App, ev: AppEvent): (r: App)
    ensures ev.ConnectionEvent? ==> r.book == a.book && r.conn == Step(a.conn, ev.event)
    ensures ev.Publication? ==>
      && r.conn == a.conn
      && r.book.lastSequence == Some(ev.data.sequence)
      && r.book.lastUpdateTime == Some(ev.data.timestamp)
      && |r.book.bids| <= MaxOrdersDisplay && |r.book.asks| <= MaxOrdersDisplay
    ensures ev.Publication? ==> r.book == ProcessOrderbookUpdate(a.book, ev.data).book
  {
    match ev
    case ConnectionEvent(e) => a.(conn := Step(a.conn, e))
    case Publication(data) => a.(book := ProcessOrderbookUpdate(a.book, data).book)
  }

  /** Connection events leave the book alone: an outage keeps showing the
      last snapshot. */
  lemma ConnectionEventsKeepBook(a: App, e: Event)
    ensures AppStep(a, ConnectionEvent(e)).book == a.book
    ensures AppStep(a, ConnectionEvent(e)).conn == Step(a.conn, e)
  {
  }

  /** A publication is applied whatever the connection state, including
      after a manual disconnect: delivery is not gated on the manual flag. */
  lemma PublicationNotGated(a: App, data: OrderbookData)
    ensures var r := AppStep(a, Publication(data));
      && r.conn == a.conn
      && r.book.lastSequence == Some(data.sequence)
      && r.book.lastUpdateTime == Some(data.timestamp)
      && r.book == ProcessOrderbookUpdate(a.book, data).book
  {
  }
}

=== FILE: constants.dfy ===
/**
 The depth cap and the two price comparators the book sorts with.
 */
module OrderbookConstants {

  /** The number of levels kept on each side of the book. */
  const MaxOrdersDisplay: nat := 100

  /** Comparator for `Array.prototype.sort` that puts the lower price first
      (used for asks). */
  function Ascending(a: real, b: real): (r: real)
    ensures r < 0.0 <==> a < b
    ensures r == 0.0 <==> a == b
    ensures r > 0.0 <==> a > b
  {
    a - b
  }

  /** Comparator that puts the higher price first (used for bids). */
  function Descending(a: real, b: real): (r: real)
    ensures r < 0.0 <==> a > b
    ensures r == 0.0 <==> a == b
    ensures r > 0.0 <==> a < b
  {
    b - a
  }

  /** The two comparators are mirror images of each other. */
  lemma DescendingIsFlippedAscending(a: real, b: real)
    ensures Descending(a, b) == Ascending(b, a)
  {
  }

  /** Both comparators are antisymmetric, as a sort comparator must be. */
  lemma ComparatorsAntisymmetric(a: real, b: real)
    ensures Ascending(a, b) == -Ascending(b, a)
    ensures Descending(a, b) == -Descending(b, a)
  {
  }
}

=== FILE: orderbook.dfy ===
/**
 One reconciliation step of the order book: `processOrderbookUpdate`.
 Each side is rebuilt from its previous levels and the side's incoming
 entries: stamp, keep positive sizes, merge by price key, sort, keep the
 best `MaxOrdersDisplay` levels.
 */
module OrderbookUpdate {
  import opened OrderbookTypes
  import opened OrderbookConstants
  import opened LevelSort
  import opened PriceMap

  /** The hook's state: both sides, the last update time and the last
      sequence number seen. */
  datatype Book = Book(
    bids: seq<Order>,
    asks: seq<Order>,
    lastUpdateTime: Option<Time>,
    lastSequence: Option<int>)

  /** The state before the first message. */
  const EmptyBook: Book := Book([], [], None, None)

  /** The new state, and whether the lost-packet warning was raised. */
  datatype Outcome = Outcome(book: Book, gapDetected: bool)

  /** Every incoming entry of a message becomes a level stamped with the
      message's time. */
  function Stamp(entries: seq<OrderEntry>, t: Time): (r: seq<Order>)
    ensures |r| == |entries|
    ensures forall i | 0 <= i < |r| ::
      r[i].price == entries[i].price && r[i].size == entries[i].size && r[i].timestamp == t
  {
    seq(|entries|, i requires 0 <= i < |entries| => Order(entries[i].price, entries[i].size, t))
  }

  /** The last level of `levels` with price key `k` and a size above zero. */
  function LastPositive(levels: seq<Order>, k: string): (r: Option<Order>)
    ensures r.Some? ==> r.value in levels && Key(r.value) == k && r.value.size.value > 0.0
    ensures r.None? <==> forall o | o in levels && Key(o) == k :: o.size.value <= 0.0
  {
    if |levels| == 0 then None
    else
      var last := levels[|levels| - 1];
      assert levels == levels[..|levels| - 1] + [last];
      if Key(last) == k && last.size.value > 0.0 then Some(last)
      else LastPositive(levels[..|levels| - 1], k)
  }

  /** `.filter(order => parseFloat(order.size) > 0)`. */
  function KeepPositive(levels: seq<Order>): (r: seq<Order>)
    ensures forall o | o in r :: o in levels && o.size.value > 0.0
    ensures forall o | o in levels && o.size.value > 0.0 :: o in r
    ensures forall k :: LastWith(r, k) == LastPositive(levels, k)
  {
    if |levels| == 0 then []
    else
      var init := levels[..|levels| - 1];
      var last := levels[|levels| - 1];
      assert levels == init + [last];
      if last.size.value > 0.0 then KeepPositive(init) + [last]
      else KeepPositive(init)
  }

  /** The levels a message contributes to one side. */
  function Incoming(entries: seq<OrderEntry>, t: Time): (r: seq<Order>)
    ensures forall o | o in r :: o.timestamp == t && o.size.value > 0.0
    ensures forall o | o in r :: exists i | 0 <= i < |entries| :: entries[i].price == o.price && entries[i].size == o.size
    ensures forall i | 0 <= i < |entries| && entries[i].size.value > 0.0 :: Order(entries[i].price, entries[i].size, t) in r
  {
    var stamped := Stamp(entries, t);
    assert forall i | 0 <= i < |entries| :: Order(entries[i].price, entries[i].size, t) == stamped[i];
    KeepPositive(stamped)
  }

  /** `new Map(prev.map(l => [l.price, l]))` followed by one `set` per
      incoming level: under every key, the last incoming level if there is
      one, otherwise the last previous level. */
  function Merge(prev: seq<Order>, incoming: seq<Order>): (m: seq<Order>)
    ensures UniqueKeys(m)
    ensures KeySet(m) == KeySet(prev) + KeySet(incoming)
    ensures forall k :: Get(m, k) == if LastWith(incoming, k).Some? then LastWith(incoming, k) else LastWith(prev, k)
    ensures forall o | o in m :: o in prev || o in incoming
  {
    PutAll(PutAll([], prev), incoming)
  }

  /** Sort and `.slice(0, MaxOrdersDisplay)`: the best levels of the side,
      in the side's order. */
  function TopLevels(side: Side, merged: seq<Order>): (r: seq<Order>)
    ensures Sorted(side, r)
    ensures |r| == if |merged| < MaxOrdersDisplay then |merged| else MaxOrdersDisplay
    ensures forall o | o in r :: o in merged
    ensures forall o | o in merged && o !in r ::
      |r| == MaxOrdersDisplay && forall p | p in r :: InOrder(side, PriceValue(p), PriceValue(o))
    ensures UniqueKeys(merged) ==> UniqueKeys(r)
  {
    var sorted := SortLevels(side, merged);
    var n := if |sorted| < MaxOrdersDisplay then |sorted| else MaxOrdersDisplay;
    TopIsBest(side, merged, sorted, n);
    PermutationKeepsUniqueKeys(merged, sorted);
    sorted[..n]
  }

  /** One side of `processOrderbookUpdate`. */
  function UpdateSide(side: Side, prev: seq<Order>, entries: seq<OrderEntry>, t: Time): (r: seq<Order>)
    ensures |r| <= MaxOrdersDisplay
    ensures Sorted(side, r)
    ensures UniqueKeys(r)
  {
    TopLevels(side, Merge(prev, Incoming(entries, t)))
  }

  /** `processOrderbookUpdate`: check the sequence, record it, rebuild both
      sides and record the update time. */
  function ProcessOrderbookUpdate(book: Book, data: OrderbookData): (out: Outcome)
    ensures out.gapDetected <==> book.lastSequence.Some? && data.sequence != book.lastSequence.value + 1
    ensures out.book.lastSequence == Some(data.sequence)
    ensures out.book.lastUpdateTime == Some(data.timestamp)
    ensures |out.book.bids| <= MaxOrdersDisplay && |out.book.asks| <= MaxOrdersDisplay
    ensures Sorted(Bids, out.book.bids) && Sorted(Asks, out.book.asks)
    ensures UniqueKeys(out.book.bids) && UniqueKeys(out.book.asks)
  {
    var currentTime := data.timestamp;
    var gap := book.lastSequence.Some? && data.sequence != book.lastSequence.value + 1;
    Outcome(
      Book(
        UpdateSide(Bids, book.bids, data.bids, currentTime),
        UpdateSide(Asks, book.asks, data.asks, currentTime),
        Some(currentTime),
        Some(data.sequence)),
      gap)
  }

  /** A prefix of a sorted rearrangement of `merged` holds its best levels. */
  lemma TopIsBest(side: Side, merged: seq<Order>, sorted: seq<Order>, n: nat)
    requires multiset(sorted) == multiset(merged) && Sorted(side, sorted)
    requires n == if |sorted| < MaxOrdersDisplay then |sorted| else MaxOrdersDisplay
    ensures forall o | o in sorted[..n] :: o in merged
    ensures forall o | o in merged && o !in sorted[..n] ::
      n == MaxOrdersDisplay && forall p | p in sorted[..n] :: InOrder(side, PriceValue(p), PriceValue(o))
  {
    var r := sorted[..n];
    forall o | o in r ensures o in merged {
      assert o in multiset(sorted);
    }
    forall o | o in merged && o !in r
      ensures n == MaxOrdersDisplay && forall p | p in r :: InOrder(side, PriceValue(p), PriceValue(o))
    {
      assert o in multiset(sorted);
      var j :| 0 <= j < |sorted| && sorted[j] == o;
      forall p | p in r ensures InOrder(side, PriceValue(p), PriceValue(o)) {
        var i :| 0 <= i < n && r[i] == p;
      }
    }
  }

  /** Removing one level of a map with unique keys leaves unique keys, none
      of them the removed level's. */
  lemma RemoveAtUnique(a: seq<Order>, p: nat)
    requires UniqueKeys(a) && p < |a|
    ensures UniqueKeys(a[..p] + a[p + 1..])
    ensures multiset(a[..p] + a[p + 1..]) + multiset{a[p]} == multiset(a)
    ensures forall y | y in a[..p] + a[p + 1..] :: Key(y) != Key(a[p])
  {
    var a' := a[..p] + a[p + 1..];
    assert a == a[..p] + [a[p]] + a[p + 1..];
    forall i, j | 0 <= i < j < |a'| ensures Key(a'[i]) != Key(a'[j]) {
      var i' := if i < p then i else i + 1;
      var j' := if j < p then j else j + 1;
      assert a'[i] == a[i'] && a'[j] == a[j'];
    }
    forall y | y in a' ensures Key(y) != Key(a[p]) {
      var i :| 0 <= i < |a'| && a'[i] == y;
      var i' := if i < p then i else i + 1;
      assert a'[i] == a[i'];
    }
  }

  /** Appending a level whose key is new keeps keys unique. */
  lemma SnocUnique(b: seq<Order>, x: Order)
    requires UniqueKeys(b)
    requires forall y | y in b :: Key(y) != Key(x)
    ensures UniqueKeys(b + [x])
  {
    var r := b + [x];
    forall i, j | 0 <= i < j < |r| ensures Key(r[i]) != Key(r[j]) {
      assert r[i] == b[i] && r[i] in b;
    }
  }

  /** Rearranging levels keeps their price keys unique. */
  lemma {:induction false} PermutationKeepsUniqueKeys(a: seq<Order>, b: seq<Order>)
    requires multiset(a) == multiset(b)
    ensures UniqueKeys(a) ==> UniqueKeys(b)
  {
    if UniqueKeys(a) && |b| > 0 {
      var x := b[|b| - 1];
      var b' := b[..|b| - 1];
      assert b == b' + [x];
      assert x in multiset(a);
      var p :| 0 <= p < |a| && a[p] == x;
      var a' := a[..p] + a[p + 1..];
      RemoveAtUnique(a, p);
      assert multiset(b) == multiset(b') + multiset{x};
      assert multiset(a') == multiset(a) - multiset{x};
      assert multiset(b') == multiset(b) - multiset{x};
      PermutationKeepsUniqueKeys(a', b');
      forall y | y in b' ensures Key(y) != Key(x) {
        assert y in multiset(a');
      }
      SnocUnique(b', x);
    }
  }
}

=== FILE: orderbook_properties.dfy ===
/**
 What one reconciliation step promises about each side of the book:
 which levels survive, which are replaced, what zero sizes do, where every
 resulting level comes from, and that a repeated message changes nothing.
 */
module OrderbookProperties {
  import opened OrderbookTypes
  import opened OrderbookConstants
  import opened LevelSort
  import opened PriceMap
  import opened OrderbookUpdate

  /** The entries of a message whose size is above zero, in order: the
      filter `KeepPositive` applies to stamped levels, taken here over the raw
      entries; `IncomingIsPositiveEntries` states that the two agree. */
  function PositiveEntries(entries: seq<OrderEntry>): (r: seq<OrderEntry>)
    ensures forall e | e in r :: e in entries && e.size.value > 0.0
    ensures forall e | e in entries && e.size.value > 0.0 :: e in r
  {
    if |entries| == 0 then []
    else
      var init := entries[..|entries| - 1];
      var last := entries[|entries| - 1];
      assert entries == init + [last];
      if last.size.value > 0.0 then PositiveEntries(init) + [last]
      else PositiveEntries(init)
  }

  /** The sequence check only warns: the book that comes out does not
      depend on the last sequence number seen. */
  lemma GapDoesNotBlockUpdate(book: Book, data: OrderbookData, last: Option<int>)
    ensures ProcessOrderbookUpdate(book.(lastSequence := last), data).book
         == ProcessOrderbookUpdate(book, data).book
  {
  }

  /** Bids and asks are rebuilt independently: each side of the result
      depends only on that side of the book and of the message (and on the
      message time). */
  lemma SidesIndependent(b1: Book, b2: Book, d1: OrderbookData, d2: OrderbookData)
    requires d1.timestamp == d2.timestamp
    ensures b1.bids == b2.bids && d1.bids == d2.bids ==>
      ProcessOrderbookUpdate(b1, d1).book.bids == ProcessOrderbookUpdate(b2, d2).book.bids
    ensures b1.asks == b2.asks && d1.asks == d2.asks ==>
      ProcessOrderbookUpdate(b1, d1).book.asks == ProcessOrderbookUpdate(b2, d2).book.asks
  {
  }

  /** Stamping distributes over appending one entry. */
  lemma StampSnoc(entries: seq<OrderEntry>, e: OrderEntry, t: Time)
    ensures Stamp(entries + [e], t) == Stamp(entries, t) + [Order(e.price, e.size, t)]
  {
  }

  /** The positive-size filter runs before the merge: the message's levels
      are the stamped positive entries, whatever the zero or negative
      entries were. */
  lemma {:induction false} IncomingIsPositiveEntries(entries: seq<OrderEntry>, t: Time)
    ensures Incoming(entries, t) == Stamp(PositiveEntries(entries), t)
  {
    if |entries| > 0 {
      var init := entries[..|entries| - 1];
      var last := entries[|entries| - 1];
      assert entries == init + [last];
      StampSnoc(init, last, t);
      assert Stamp(entries, t)[..|entries| - 1] == Stamp(init, t);
      IncomingIsPositiveEntries(init, t);
      if last.size.value > 0.0 {
        StampSnoc(PositiveEntries(init), last, t);
      }
    }
  }

  /** Entries whose size is not above zero have no effect at all: they
      neither insert nor remove a level. */
  lemma NonPositiveEntriesIgnored(side: Side, prev: seq<Order>, entries: seq<OrderEntry>, t: Time)
    ensures UpdateSide(side, prev, entries, t) == UpdateSide(side, prev, PositiveEntries(entries), t)
  {
    IncomingIsPositiveEntries(entries, t);
    IncomingIsPositiveEntries(PositiveEntries(entries), t);
    PositiveEntriesIdempotent(entries);
  }

  /** Filtering twice is filtering once. */
  lemma {:induction false} PositiveEntriesIdempotent(entries: seq<OrderEntry>)
    ensures PositiveEntries(PositiveEntries(entries)) == PositiveEntries(entries)
  {
    if |entries| > 0 {
      var init := entries[..|entries| - 1];
      var last := entries[|entries| - 1];
      assert entries == init + [last];
      PositiveEntriesIdempotent(init);
      if last.size.value > 0.0 {
        var p := PositiveEntries(init) + [last];
        assert p[..|p| - 1] == PositiveEntries(init);
      }
    }
  }

  /** In a map with unique keys, the last level under a level's key is that
      level. */
  lemma LastWithUnique(m: seq<Order>, o: Order)
    requires UniqueKeys(m) && o in m
    ensures LastWith(m, Key(o)) == Some(o)
  {
    assert Key(o) in KeySet(m);
    var v := LastWith(m, Key(o)).value;
    var i :| 0 <= i < |m| && m[i] == v;
    var j :| 0 <= j < |m| && m[j] == o;
    assert i == j;
  }

  /** No positive entry carries key `k` exactly when no incoming level does. */
  lemma NoPositiveEntry(entries: seq<OrderEntry>, t: Time, k: string)
    ensures LastWith(Incoming(entries, t), k).None? <==>
      forall i | 0 <= i < |entries| && entries[i].price.text == k :: entries[i].size.value <= 0.0
  {
    var st := Stamp(entries, t);
    if LastWith(Incoming(entries, t), k).None? {
      forall i | 0 <= i < |entries| && entries[i].price.text == k
        ensures entries[i].size.value <= 0.0
      {
        assert st[i] in st && Key(st[i]) == k;
      }
    }
  }

  /** Retention: a previous level whose price has no positive entry in the
      message (absent, or only zero or negative sizes) is kept with its old
      size and timestamp, unless the depth cap pushes it out behind 100
      levels that all rank at least as well. */
  lemma Retention(side: Side, prev: seq<Order>, entries: seq<OrderEntry>, t: Time, o: Order)
    requires UniqueKeys(prev) && o in prev
    requires forall i | 0 <= i < |entries| && entries[i].price.text == Key(o) :: entries[i].size.value <= 0.0
    ensures o in Merge(prev, Incoming(entries, t))
    ensures var r := UpdateSide(side, prev, entries, t);
      o in r || (|r| == MaxOrdersDisplay && forall p | p in r :: InOrder(side, PriceValue(p), PriceValue(o)))
  {
    var merged := Merge(prev, Incoming(entries, t));
    NoPositiveEntry(entries, t, Key(o));
    LastWithUnique(prev, o);
    assert Get(merged, Key(o)) == Some(o);
  }

  /** Last write wins: when entry `i` is the last positive entry for price
      key `k`, the side holds exactly that entry under `k`, stamped with the
      message time, and no other level with that key. */
  lemma LastPositiveEntryWins(side: Side, prev: seq<Order>, entries: seq<OrderEntry>, t: Time, i: nat)
    requires i < |entries| && entries[i].size.value > 0.0
    requires forall j | i < j < |entries| && entries[j].price.text == entries[i].price.text :: entries[j].size.value <= 0.0
    ensures var won := Order(entries[i].price, entries[i].size, t);
      && Get(Merge(prev, Incoming(entries, t)), entries[i].price.text) == Some(won)
      && forall o | o in UpdateSide(side, prev, entries, t) && Key(o) == entries[i].price.text :: o == won
  {
    var k := entries[i].price.text;
    var won := Order(entries[i].price, entries[i].size, t);
    var merged := Merge(prev, Incoming(entries, t));
    LastPositiveAt(Stamp(entries, t), i);
    assert Get(merged, k) == Some(won);
    forall o | o in UpdateSide(side, prev, entries, t) && Key(o) == k ensures o == won {
      UniqueMember(merged, o);
    }
  }

  /** The last positive level with a key is the one at the last positive
      index with that key. */
  lemma {:induction false} LastPositiveAt(levels: seq<Order>, i: nat)
    requires i < |levels| && levels[i].size.value > 0.0
    requires forall j | i < j < |levels| && Key(levels[j]) == Key(levels[i]) :: levels[j].size.value <= 0.0
    ensures LastPositive(levels, Key(levels[i])) == Some(levels[i])
  {
    if i < |levels| - 1 {
      var init := levels[..|levels| - 1];
      assert init[i] == levels[i];
      LastPositiveAt(init, i);
    }
  }

  /** Every level of a side after an update is either a positive entry of
      the message, stamped with its time, or a previous level whose price
      the message did not set. */
  lemma Provenance(side: Side, prev: seq<Order>, entries: seq<OrderEntry>, t: Time)
    ensures forall o | o in UpdateSide(side, prev, entries, t) ::
      || (o.timestamp == t && o.size.value > 0.0 &&
          exists i | 0 <= i < |entries| :: entries[i].price == o.price && entries[i].size == o.size)
      || (o in prev &&
          forall i | 0 <= i < |entries| && entries[i].price.text == Key(o) :: entries[i].size.value <= 0.0)
  {
    var incoming := Incoming(entries, t);
    var merged := Merge(prev, incoming);
    var st := Stamp(entries, t);
    forall o | o in UpdateSide(side, prev, entries, t)
      ensures || (o.timestamp == t && o.size.value > 0.0 &&
                  exists i | 0 <= i < |entries| :: entries[i].price == o.price && entries[i].size == o.size)
              || (o in prev &&
                  forall i | 0 <= i < |entries| && entries[i].price.text == Key(o) :: entries[i].size.value <= 0.0)
    {
      if o in incoming {
        var i :| 0 <= i < |st| && st[i] == o;
        assert entries[i].price == o.price && entries[i].size == o.size;
      } else {
        UniqueMember(merged, o);
        NoPositiveEntry(entries, t, Key(o));
      }
    }
  }

  /** Equal numeric prices only ever come with equal price texts: distinct
      keys of the book never tie when sorted. */
  ghost predicate PricesKeyed(levels: seq<Order>)
  {
    forall i, j | 0 <= i < |levels| && 0 <= j < |levels| ::
      PriceValue(levels[i]) == PriceValue(levels[j]) ==> Key(levels[i]) == Key(levels[j])
  }

  /** A subset has no more elements than its superset. */
  lemma SubsetSize(a: set<string>, b: set<string>)
    requires a <= b
    ensures |a| <= |b|
  {
    assert b == a + (b - a);
    assert a !! (b - a);
  }

  /** A selection holds the best levels of `xs`: it is drawn from `xs`, and
      every level of `xs` left out ranks no better than every level in it. */
  ghost predicate BestOf(side: Side, a: seq<Order>, xs: set<Order>)
  {
    && (forall x | x in a :: x in xs)
    && (forall x | x in xs && x !in a :: forall p | p in a :: InOrder(side, PriceValue(p), PriceValue(x)))
  }

  /** No two levels of `xs` share a price. */
  ghost predicate DistinctPrices(xs: set<Order>)
  {
    forall x, y | x in xs && y in xs && PriceValue(x) == PriceValue(y) :: x == y
  }

  /** The head of a sorted best selection ranks at least as well as every
      level of another best selection. */
  lemma HeadRanksFirst(side: Side, a: seq<Order>, b: seq<Order>, xs: set<Order>)
    requires Sorted(side, a) && |a| > 0 && |b| > 0
    requires BestOf(side, a, xs) && b[0] in xs
    ensures InOrder(side, PriceValue(a[0]), PriceValue(b[0]))
  {
    if b[0] in a {
      var i :| 0 <= i < |a| && a[i] == b[0];
      InOrderMeaning(side, PriceValue(a[0]), PriceValue(a[0]));
    }
  }

  /** Two non-empty sorted best selections of a set with distinct prices
      start with the same level. */
  lemma HeadsAgree(side: Side, a: seq<Order>, b: seq<Order>, xs: set<Order>)
    requires Sorted(side, a) && Sorted(side, b) && |a| > 0 && |b| > 0
    requires BestOf(side, a, xs) && BestOf(side, b, xs) && DistinctPrices(xs)
    ensures a[0] == b[0]
  {
    HeadRanksFirst(side, a, b, xs);
    HeadRanksFirst(side, b, a, xs);
    InOrderMeaning(side, PriceValue(a[0]), PriceValue(b[0]));
  }

  /** Dropping the head of a best selection with unique keys leaves a best
      selection of the set without that head. */
  lemma TailIsBest(side: Side, a: seq<Order>, xs: set<Order>)
    requires UniqueKeys(a) && |a| > 0 && BestOf(side, a, xs)
    ensures BestOf(side, a[1..], xs - {a[0]})
  {
    forall x | x in a[1..] ensures x in xs - {a[0]} {
      var i :| 0 <= i < |a[1..]| && a[1..][i] == x;
      assert Key(a[i + 1]) != Key(a[0]);
    }
  }

  /** The tail of a sorted sequence with unique keys is too. */
  lemma TailSortedUnique(side: Side, a: seq<Order>)
    requires Sorted(side, a) && UniqueKeys(a) && |a| > 0
    ensures Sorted(side, a[1..]) && UniqueKeys(a[1..])
  {
  }

  /** Two sorted, duplicate-free selections of the same length from a set
      of levels with distinct prices, each holding the best levels of the
      set, are the same sequence. */
  lemma {:induction false} BestSelectionUnique(side: Side, a: seq<Order>, b: seq<Order>, xs: set<Order>)
    requires Sorted(side, a) && Sorted(side, b) && UniqueKeys(a) && UniqueKeys(b) && |a| == |b|
    requires BestOf(side, a, xs) && BestOf(side, b, xs) && DistinctPrices(xs)
    ensures a == b
  {
    if |a| > 0 {
      HeadsAgree(side, a, b, xs);
      TailIsBest(side, a, xs);
      TailIsBest(side, b, xs);
      TailSortedUnique(side, a);
      TailSortedUnique(side, b);
      var xs' := xs - {a[0]};
      assert DistinctPrices(xs') by {
        assert xs' <= xs;
      }
      BestSelectionUnique(side, a[1..], b[1..], xs');
      assert a == [a[0]] + a[1..];
      assert b == [b[0]] + b[1..];
    }
  }

  /** The levels of the second merge all stand in the first, and the first
      result stands in the second merge. */
  lemma SecondMergeBetween(side: Side, prev: seq<Order>, incoming: seq<Order>)
    ensures var m1 := Merge(prev, incoming);
      var r1 := TopLevels(side, m1);
      var m2 := Merge(r1, incoming);
      && (forall x | x in m2 :: x in m1)
      && (forall x | x in r1 :: x in m2)
  {
    var m1 := Merge(prev, incoming);
    var r1 := TopLevels(side, m1);
    var m2 := Merge(r1, incoming);
    forall x | x in m2 ensures x in m1 {
      UniqueMember(m2, x);
      if LastWith(incoming, Key(x)).None? {
        assert x in r1;
      }
    }
    forall x | x in r1 ensures x in m2 {
      UniqueMember(m1, x);
      if LastWith(incoming, Key(x)).None? {
        LastWithUnique(r1, x);
      }
      UniqueMember(m2, x);
    }
  }

  /** Under `PricesKeyed`, two merged levels with equal prices are the
      same level. */
  lemma MergeDistinctPrices(prev: seq<Order>, entries: seq<OrderEntry>, t: Time)
    requires PricesKeyed(prev + Incoming(entries, t))
    ensures var m := Merge(prev, Incoming(entries, t));
      forall x, y | x in m && y in m && PriceValue(x) == PriceValue(y) :: x == y
  {
    var m := Merge(prev, Incoming(entries, t));
    var all := prev + Incoming(entries, t);
    forall x, y | x in m && y in m && PriceValue(x) == PriceValue(y) ensures x == y {
      assert x in all && y in all;
      var i :| 0 <= i < |all| && all[i] == x;
      var j :| 0 <= j < |all| && all[j] == y;
      assert Key(x) == Key(y);
      UniqueMember(m, x);
      UniqueMember(m, y);
    }
  }

  /** A map with unique keys whose levels all stand in another such map
      is no longer than it. */
  lemma ContainedNoLonger(a: seq<Order>, b: seq<Order>)
    requires UniqueKeys(a) && UniqueKeys(b)
    requires forall x | x in a :: x in b
    ensures |a| <= |b|
  {
    assert KeySet(a) <= KeySet(b);
    SubsetSize(KeySet(a), KeySet(b));
    UniqueSize(a);
    UniqueSize(b);
  }

  /** Re-applying an update does not change how many levels a side keeps. */
  lemma SecondResultSameLength(side: Side, prev: seq<Order>, incoming: seq<Order>)
    ensures var r1 := TopLevels(side, Merge(prev, incoming));
      |TopLevels(side, Merge(r1, incoming))| == |r1|
  {
    var m1 := Merge(prev, incoming);
    var r1 := TopLevels(side, m1);
    var m2 := Merge(r1, incoming);
    SecondMergeBetween(side, prev, incoming);
    ContainedNoLonger(m2, m1);
    ContainedNoLonger(r1, m2);
  }

  /** Applying the same side update twice in a row gives what applying it
      once gave, provided distinct price keys among the previous levels and
      the message's positive entries have distinct numeric prices. */
  lemma SideIdempotent(side: Side, prev: seq<Order>, entries: seq<OrderEntry>, t: Time)
    requires PricesKeyed(prev + Incoming(entries, t))
    ensures UpdateSide(side, UpdateSide(side, prev, entries, t), entries, t) == UpdateSide(side, prev, entries, t)
  {
    var incoming := Incoming(entries, t);
    var m1 := Merge(prev, incoming);
    var r1 := TopLevels(side, m1);
    var m2 := Merge(r1, incoming);
    var r2 := TopLevels(side, m2);
    SecondMergeBetween(side, prev, incoming);
    SecondResultSameLength(side, prev, incoming);
    MergeDistinctPrices(prev, entries, t);
    var xs := set x | x in m2;
    forall x | x in xs && x !in r1
      ensures forall p | p in r1 :: InOrder(side, PriceValue(p), PriceValue(x))
    {
      assert x in m1;
    }
    assert BestOf(side, r1, xs);
    assert BestOf(side, r2, xs);
    assert DistinctPrices(xs);
    BestSelectionUnique(side, r1, r2, xs);
  }

  /** Delivering the same message twice in a row leaves the book as one
      delivery left it. */
  lemma ApplyTwice(book: Book, data: OrderbookData)
    requires PricesKeyed(book.bids + Incoming(data.bids, data.timestamp))
    requires PricesKeyed(book.asks + Incoming(data.asks, data.timestamp))
    ensures var once := ProcessOrderbookUpdate(book, data).book;
      ProcessOrderbookUpdate(once, data).book == once
  {
    SideIdempotent(Bids, book.bids, data.bids, data.timestamp);
    SideIdempotent(Asks, book.asks, data.asks, data.timestamp);
  }
}

=== FILE: price_map.dfy ===
/**
 The JavaScript `Map<string, Order>` the book is merged in, keyed by the
 exact price text. A map is modelled as the sequence of its entries in
 insertion order, which is the order `Map.prototype.values` yields them.
 */
module PriceMap {
  import opened OrderbookTypes

  /** No two entries share a price key. */
  ghost predicate UniqueKeys(m: seq<Order>)
  {
    forall i, j :: 0 <= i < j < |m| ==> Key(m[i]) != Key(m[j])
  }

  /** The price keys present. */
  function KeySet(m: seq<Order>): set<string>
  {
    set o | o in m :: Key(o)
  }

  /** The keys of a concatenation are the keys of its parts. */
  lemma KeySetConcat(a: seq<Order>, b: seq<Order>)
    ensures KeySet(a + b) == KeySet(a) + KeySet(b)
  {
    forall k | k in KeySet(a + b) ensures k in KeySet(a) + KeySet(b) {
      var o :| o in a + b && Key(o) == k;
    }
    forall k | k in KeySet(a) + KeySet(b) ensures k in KeySet(a + b) {
      if k in KeySet(a) {
        var o :| o in a && Key(o) == k;
        assert o in a + b;
      } else {
        var o :| o in b && Key(o) == k;
        assert o in a + b;
      }
    }
  }

  /** `Map.prototype.get`: the entry stored under `k`. */
  function Get(m: seq<Order>, k: string): (r: Option<Order>)
    ensures r.Some? ==> r.value in m && Key(r.value) == k
    ensures r.None? <==> k !in KeySet(m)
  {
    if |m| == 0 then None
    else if Key(m[0]) == k then Some(m[0])
    else
      assert m == [m[0]] + m[1..];
      Get(m[1..], k)
  }

  /** The last of `es` whose key is `k`: what a run of `set` calls leaves
      under `k`. */
  function LastWith(es: seq<Order>, k: string): (r: Option<Order>)
    ensures r.Some? ==> r.value in es && Key(r.value) == k
    ensures r.None? <==> k !in KeySet(es)
  {
    if |es| == 0 then None
    else
      assert es == es[..|es| - 1] + [es[|es| - 1]];
      if Key(es[|es| - 1]) == k then Some(es[|es| - 1])
      else LastWith(es[..|es| - 1], k)
  }

  /** `Map.prototype.set`: overwrite the entry under the key in place, or
      append a new entry at the end. */
  function Put(m: seq<Order>, o: Order): (r: seq<Order>)
    ensures forall k :: Get(r, k) == if k == Key(o) then Some(o) else Get(m, k)
    ensures forall x | x in r :: x in m || x == o
    ensures Key(o) !in KeySet(m) ==> r == m + [o]
  {
    if |m| == 0 then [o]
    else if Key(m[0]) == o.price.text then
      [o] + m[1..]
    else
      assert m == [m[0]] + m[1..];
      [m[0]] + Put(m[1..], o)
  }

  /** `set` adds its key to the map's keys. */
  lemma PutKeys(m: seq<Order>, o: Order)
    ensures KeySet(Put(m, o)) == KeySet(m) + {Key(o)}
  {
    var r := Put(m, o);
    forall k ensures k in KeySet(r) <==> k in KeySet(m) + {Key(o)} {
      assert Get(r, k).Some? <==> k in KeySet(r);
      assert Get(m, k).Some? <==> k in KeySet(m);
    }
  }

  /** The head of a map with unique keys does not reappear in its tail. */
  lemma HeadKeyNotInTail(m: seq<Order>)
    requires UniqueKeys(m) && |m| > 0
    ensures Key(m[0]) !in KeySet(m[1..])
  {
  }

  /** A level whose key is not in a map with unique keys may head it. */
  lemma ConsUnique(h: Order, t: seq<Order>)
    requires UniqueKeys(t) && Key(h) !in KeySet(t)
    ensures UniqueKeys([h] + t)
  {
    var r := [h] + t;
    forall i, j | 0 <= i < j < |r| ensures Key(r[i]) != Key(r[j]) {
      assert r[j] == t[j - 1] && r[j] in t;
      if i > 0 {
        assert r[i] == t[i - 1];
      }
    }
  }

  /** `set` keeps the keys of a map unique. */
  lemma {:induction false} PutUnique(m: seq<Order>, o: Order)
    ensures UniqueKeys(m) ==> UniqueKeys(Put(m, o))
  {
    if UniqueKeys(m) && |m| > 0 {
      assert m == [m[0]] + m[1..];
      HeadKeyNotInTail(m);
      if Key(m[0]) == Key(o) {
        ConsUnique(o, m[1..]);
      } else {
        PutUnique(m[1..], o);
        PutKeys(m[1..], o);
        ConsUnique(m[0], Put(m[1..], o));
      }
    }
  }

  /** `entries.forEach(e => map.set(e.price, e))`, starting from `m`. */
  function PutAll(m: seq<Order>, es: seq<Order>): (r: seq<Order>)
    ensures forall k :: Get(r, k) == if LastWith(es, k).Some? then LastWith(es, k) else Get(m, k)
    ensures KeySet(r) == KeySet(m) + KeySet(es)
    ensures forall x | x in r :: x in m || x in es
    ensures UniqueKeys(m) ==> UniqueKeys(r)
  {
    if |es| == 0 then m
    else
      var init := es[..|es| - 1];
      assert es == init + [es[|es| - 1]];
      var prefix := PutAll(m, init);
      PutKeys(prefix, es[|es| - 1]);
      PutUnique(prefix, es[|es| - 1]);
      KeySetConcat(init, [es[|es| - 1]]);
      Put(prefix, es[|es| - 1])
  }

  /** In a map with unique keys, a level is present exactly when `get` on
      its price returns it. */
  lemma {:induction false} UniqueMember(m: seq<Order>, x: Order)
    requires UniqueKeys(m)
    ensures x in m <==> Get(m, Key(x)) == Some(x)
  {
    if |m| > 0 && Key(m[0]) != Key(x) {
      assert m == [m[0]] + m[1..];
      UniqueMember(m[1..], x);
    } else if |m| > 0 && x in m {
      var i :| 0 <= i < |m| && m[i] == x;
      assert i == 0;
    }
  }

  /** A map with unique keys has as many entries as keys. */
  lemma {:induction false} UniqueSize(m: seq<Order>)
    requires UniqueKeys(m)
    ensures |KeySet(m)| == |m|
  {
    if |m| > 0 {
      assert m == [m[0]] + m[1..];
      KeySetConcat([m[0]], m[1..]);
      assert KeySet([m[0]]) == {Key(m[0])};
      HeadKeyNotInTail(m);
      UniqueSize(m[1..]);
    }
  }
}

=== FILE: reconnect.dfy ===
/**
 The connection lifecycle of the websocket service as an event-driven state
 machine. The refs and state of the hook become one immutable record, and
 each callback (transport and subscription events, the reconnect timer, the
 mount effect and its cleanup) becomes one transition.

 Timers are modelled by handle: `timerRef` is the ref holding the handle of
 the last timer set (it is not reset when that timer fires or is cleared),
 and `armed` holds the timers that are set and have neither fired nor been
 cleared, each with its delay.
 */
module ReconnectMachine {
  import opened OrderbookTypes

  /** Delay before a reconnect attempt, in milliseconds. */
  const ReconnectDelay: nat := 5000

  /** The connection status shown to the user. */
  datatype Status = Disconnected | Connecting | Connected

  /** A handle returned by `setTimeout`. */
  type TimerId = nat

  datatype Connection = Connection(
    status: Status,
    attempts: nat,
    timerRef: Option<TimerId>,
    armed: map<TimerId, nat>,
    nextTimer: TimerId,
    manual: bool)

  /** The hook's state on first render. */
  const Initial: Connection := Connection(Disconnected, 0, None, map[], 0, false)

  /** Everything that can happen to the service. */
  datatype Event =
    | Mount                     // the effect runs
    | TransportConnected        // client 'connected'
    | Subscribed                // subscription 'subscribed'
    | TransportDisconnected     // client 'disconnected'
    | TransportError            // client 'error'
    | Unsubscribed              // subscription 'unsubscribed'
    | SubscriptionError         // subscription 'error'
    | TimerFired(id: TimerId)   // the timer with this handle runs out
    | Teardown                  // the effect's cleanup runs

  /** The four events that trigger a reconnect. */
  predicate IsFailure(e: Event)
  {
    e.TransportDisconnected? || e.TransportError? || e.Unsubscribed? || e.SubscriptionError?
  }

  /** A reconnect timer is pending. */
  predicate TimerPending(c: Connection)
  {
    c.armed != map[]
  }

  /** The reachable-state invariant: only the timer in the ref can be armed,
      its handle is older than the next one handed out, it was set for the
      reconnect delay, and nothing is armed after a manual disconnect. */
  ghost predicate Valid(c: Connection)
  {
    && (forall id | id in c.armed :: id < c.nextTimer && c.timerRef == Some(id) && c.armed[id] == ReconnectDelay)
    && (c.manual ==> !TimerPending(c))
  }

  /** `clearTimeout(reconnectTimeoutRef.current)` when the ref is set. */
  function ClearRefTimer(c: Connection): (r: Connection)
    ensures r.armed.Keys == if c.timerRef.Some? then c.armed.Keys - {c.timerRef.value} else c.armed.Keys
    ensures forall id | id in r.armed :: id in c.armed && r.armed[id] == c.armed[id]
    ensures r.(armed := c.armed) == c
  {
    if c.timerRef.Some? then c.(armed := c.armed - {c.timerRef.value}) else c
  }

  /** `connect()`: show `connecting` and start a new client. */
  function Connect(c: Connection): (r: Connection)
    ensures r.status == Connecting
    ensures r.(status := c.status) == c
  {
    c.(status := Connecting)
  }

  /** `scheduleReconnect()`: unless the disconnect was manual, clear the
      timer in the ref and set a new one for the reconnect delay. */
  function ScheduleReconnect(c: Connection): (r: Connection)
    ensures c.manual ==> r == c
    ensures !c.manual ==> r.armed.Keys == (c.armed.Keys - (if c.timerRef.Some? then {c.timerRef.value} else {})) + {c.nextTimer}
    ensures !c.manual ==>
      && r.timerRef == Some(c.nextTimer)
      && c.nextTimer in r.armed && r.armed[c.nextTimer] == ReconnectDelay
      && r.status == c.status && r.attempts == c.attempts && r.manual == c.manual
      && r.nextTimer > c.nextTimer
    ensures !c.manual ==>
      forall id | id in r.armed && id != c.nextTimer :: id in c.armed && r.armed[id] == c.armed[id]
  {
    if c.manual then c
    else
      var cleared := ClearRefTimer(c);
      cleared.(
        armed := cleared.armed[c.nextTimer := ReconnectDelay],
        timerRef := Some(c.nextTimer),
        nextTimer := c.nextTimer + 1)
  }

  /** A failure callback: unless the disconnect was manual, show
      `disconnected` and schedule a reconnect. */
  function OnFailure(c: Connection): (r: Connection)
    ensures c.manual ==> r == c
    ensures !c.manual ==>
      && r.status == Disconnected
      && r.attempts == c.attempts
      && r.timerRef == Some(c.nextTimer)
      && c.nextTimer in r.armed && r.armed[c.nextTimer] == ReconnectDelay
      && r.manual == c.manual
    ensures !c.manual ==> r.armed.Keys == (c.armed.Keys - (if c.timerRef.Some? then {c.timerRef.value} else {})) + {c.nextTimer}
    ensures !c.manual ==>
      forall id | id in r.armed && id != c.nextTimer :: id in c.armed && r.armed[id] == c.armed[id]
  {
    if c.manual then c
    else ScheduleReconnect(c.(status := Disconnected))
  }

  /** One event. */
  function Step(c: Connection, e: Event): (r: Connection)
    ensures Valid(c) ==> Valid(r)
    ensures r.manual == (if e.Mount? then false else if e.Teardown? then true else c.manual)
  {
    match e
    case Mount => Connect(c.(manual := false))
    case TransportConnected => c.(status := Connected, attempts := 0)
    case Subscribed => c
    case TransportDisconnected => OnFailure(c)
    case TransportError => OnFailure(c)
    case Unsubscribed => OnFailure(c)
    case SubscriptionError => OnFailure(c)
    case TimerFired(id) =>
      if id in c.armed then Connect(c.(armed := c.armed - {id}, attempts := c.attempts + 1))
      else c
    case Teardown => ClearRefTimer(c.(manual := true))
  }

  /** A run of events from a state. */
  function Run(c: Connection, events: seq<Event>): Connection
    decreases |events|
  {
    if |events| == 0 then c else Run(Step(c, events[0]), events[1..])
  }
}

=== FILE: reconnect_properties.dfy ===
/**
 What the reconnect machine promises: one pending timer at most, the manual
 flag as the only gate on reconnecting, a fixed delay, and a counter that a
 successful connection resets.
 */
module ReconnectProperties {
  import opened OrderbookTypes
  import opened ReconnectMachine

  /** A valid state has at most one reconnect timer pending. */
  lemma AtMostOneTimer(c: Connection)
    requires Valid(c)
    ensures |c.armed.Keys| <= 1
  {
    if TimerPending(c) {
      var id :| id in c.armed;
      assert c.armed.Keys <= {id};
      assert c.armed.Keys == {id};
    }
  }

  /** Validity is kept by every run of events, so at most one reconnect
      timer is ever pending. */
  lemma {:induction false} RunStaysValid(c: Connection, events: seq<Event>)
    requires Valid(c)
    ensures Valid(Run(c, events))
    ensures |Run(c, events).armed.Keys| <= 1
    decreases |events|
  {
    if |events| > 0 {
      RunStaysValid(Step(c, events[0]), events[1..]);
    }
    AtMostOneTimer(Run(c, events));
  }

  /** From the first render on, every state is valid and has at most one
      reconnect timer pending. */
  lemma ReachableStatesValid(events: seq<Event>)
    ensures Valid(Run(Initial, events))
    ensures |Run(Initial, events).armed.Keys| <= 1
  {
    RunStaysValid(Initial, events);
  }

  /** Mounting clears the manual flag and starts connecting. */
  lemma MountConnects(c: Connection)
    ensures var r := Step(c, Mount);
      r.status == Connecting && !r.manual && r.attempts == c.attempts && r.armed == c.armed
  {
  }

  /** The transport's `connected` event alone shows `connected` and resets
      the attempt counter; a pending timer is left alone. */
  lemma ConnectedResetsAttempts(c: Connection)
    ensures var r := Step(c, TransportConnected);
      r.status == Connected && r.attempts == 0 && r.armed == c.armed && r.manual == c.manual
  {
  }

  /** A failure while not manually disconnected shows `disconnected`,
      cancels the pending timer and leaves exactly one new timer pending,
      set for the reconnect delay whatever the attempt count. */
  lemma FailureSchedulesOneReconnect(c: Connection, e: Event)
    requires Valid(c) && IsFailure(e) && !c.manual
    ensures var r := Step(c, e);
      && r.status == Disconnected
      && r.armed == map[c.nextTimer := ReconnectDelay]
      && r.timerRef == Some(c.nextTimer)
      && c.nextTimer !in c.armed
      && r.attempts == c.attempts
  {
    var r := Step(c, e);
    assert r.armed.Keys == {c.nextTimer};
  }

  /** A failure after a manual disconnect changes nothing: the status stays
      what it was and no timer is set. */
  lemma FailureAfterManualIsIgnored(c: Connection, e: Event)
    requires IsFailure(e) && c.manual
    ensures Step(c, e) == c
  {
  }

  /** The manual flag is the one gate: after a failure a reconnect is
      pending exactly when the disconnect was not manual. */
  lemma ManualFlagGatesReconnect(c: Connection, e: Event)
    requires Valid(c) && IsFailure(e)
    ensures TimerPending(Step(c, e)) <==> !c.manual
  {
    if !c.manual {
      FailureSchedulesOneReconnect(c, e);
    }
  }

  /** A pending timer that fires counts one more attempt and connects. */
  lemma TimerFiresReconnect(c: Connection, id: TimerId)
    requires Valid(c) && id in c.armed
    ensures var r := Step(c, TimerFired(id));
      r.attempts == c.attempts + 1 && r.status == Connecting && !TimerPending(r)
  {
    var r := Step(c, TimerFired(id));
    assert r.armed.Keys == c.armed.Keys - {id};
    forall k | k in c.armed ensures k == id {
      assert c.timerRef == Some(k) && c.timerRef == Some(id);
    }
  }

  /** A timer that was cleared, or already fired, never runs. */
  lemma ClearedTimerNeverFires(c: Connection, id: TimerId)
    requires id !in c.armed
    ensures Step(c, TimerFired(id)) == c
  {
  }

  /** Teardown sets the manual flag and cancels the pending timer. */
  lemma TeardownCancels(c: Connection)
    requires Valid(c)
    ensures var r := Step(c, Teardown);
      r.manual && !TimerPending(r) && r.status == c.status && r.attempts == c.attempts
  {
    var r := Step(c, Teardown);
    forall k | k in c.armed ensures k !in r.armed {
      assert c.timerRef == Some(k);
    }
    assert r.armed.Keys == {};
  }

  /** Tearing down twice is tearing down once. */
  lemma TeardownIdempotent(c: Connection)
    ensures Step(Step(c, Teardown), Teardown) == Step(c, Teardown)
  {
  }

  /** After teardown, and until the next mount, no reconnect is ever
      scheduled or started: no timer becomes pending, the attempt count never
      grows and the status never turns to `connecting`. */
  lemma {:induction false} NoReconnectAfterTeardown(c: Connection, events: seq<Event>)
    requires c.manual && !TimerPending(c)
    requires forall i | 0 <= i < |events| :: !events[i].Mount?
    ensures var r := Run(c, events);
      && r.manual && !TimerPending(r)
      && r.attempts <= c.attempts
      && (r.status == Connecting ==> c.status == Connecting)
    decreases |events|
  {
    if |events| > 0 {
      var next := Step(c, events[0]);
      assert !TimerPending(next) && next.attempts <= c.attempts;
      assert next.status == Connecting ==> c.status == Connecting;
      assert forall i | 0 <= i < |events[1..]| :: events[1..][i] == events[i + 1];
      NoReconnectAfterTeardown(next, events[1..]);
    }
  }
}

=== FILE: scenarios.dfy ===
/**
 Concrete runs of the book and of the connection, worked out in full.
 */
module Scenarios {
  import opened OrderbookTypes
  import opened LevelSort
  import opened PriceMap
  import opened OrderbookUpdate
  import opened ReconnectMachine

  /** Sequence 5 then 7 raises the warning, 5 then 6 does not, and both
      messages are applied. */
  lemma SequenceGapScenario(book: Book, data: OrderbookData)
    requires book.lastSequence == Some(5)
    ensures ProcessOrderbookUpdate(book, data.(sequence := 7)).gapDetected
    ensures !ProcessOrderbookUpdate(book, data.(sequence := 6)).gapDetected
    ensures ProcessOrderbookUpdate(book, data.(sequence := 7)).book.(lastSequence := Some(6))
         == ProcessOrderbookUpdate(book, data.(sequence := 6)).book
    ensures ProcessOrderbookUpdate(book, data.(sequence := 7)).book.lastSequence == Some(7)
    ensures ProcessOrderbookUpdate(book, data.(sequence := 6)).book.lastSequence == Some(6)
  {
  }

  const P100: Decimal := Decimal("100.00", 100.0)
  const P101: Decimal := Decimal("101.00", 101.0)
  const P101_5: Decimal := Decimal("101.50", 101.5)
  const Size1_5: Decimal := Decimal("1.5", 1.5)
  const Size2: Decimal := Decimal("2.0", 2.0)
  const Size0_5: Decimal := Decimal("0.5", 0.5)
  const Size0: Decimal := Decimal("0", 0.0)

  const First: OrderbookData :=
    OrderbookData("BTC-USD", [OrderEntry(P100, Size1_5)], [OrderEntry(P101, Size2)], 1, 1000)
  const Second: OrderbookData :=
    OrderbookData("BTC-USD", [OrderEntry(P100, Size0)], [OrderEntry(P101_5, Size0_5)], 2, 2000)

  const Bid1: Order := Order(P100, Size1_5, 1000)
  const Ask1: Order := Order(P101, Size2, 1000)
  const ZeroBid: Order := Order(P100, Size0, 2000)
  const Ask2: Order := Order(P101_5, Size0_5, 2000)

  /** A one-level side sorts to itself. */
  lemma SortSingle(side: Side, o: Order)
    ensures SortLevels(side, [o]) == [o]
  {
    assert [o][..0] == [];
  }

  /** A one-level batch merged into a book without that key is appended. */
  lemma MergeSingle(prev: seq<Order>, o: Order)
    requires Key(o) !in KeySet(prev)
    ensures Merge(prev, [o]) == PutAll([], prev) + [o]
  {
    var m := PutAll([], prev);
    assert KeySet(m) == KeySet(prev);
    assert [o][..0] == [];
    assert PutAll(m, [o]) == Put(PutAll(m, []), o);
  }

  lemma FirstBids()
    ensures UpdateSide(Bids, [], First.bids, 1000) == [Bid1]
  {
    assert Stamp(First.bids, 1000) == [Bid1];
    assert KeepPositive([Bid1]) == [Bid1] by {
      assert [Bid1][..0] == [];
    }
    MergeSingle([], Bid1);
    SortSingle(Bids, Bid1);
  }

  lemma FirstAsks()
    ensures UpdateSide(Asks, [], First.asks, 1000) == [Ask1]
  {
    assert Stamp(First.asks, 1000) == [Ask1];
    assert KeepPositive([Ask1]) == [Ask1] by {
      assert [Ask1][..0] == [];
    }
    MergeSingle([], Ask1);
    SortSingle(Asks, Ask1);
  }

  lemma SecondBids()
    ensures UpdateSide(Bids, [Bid1], Second.bids, 2000) == [Bid1]
  {
    assert Stamp(Second.bids, 2000) == [ZeroBid];
    assert KeepPositive([ZeroBid]) == [] by {
      assert [ZeroBid][..0] == [];
    }
    assert PutAll([], [Bid1]) == [Bid1] by {
      assert [Bid1][..0] == [];
    }
    SortSingle(Bids, Bid1);
  }

  lemma SecondAsksMerged()
    ensures Merge([Ask1], Incoming(Second.asks, 2000)) == [Ask1, Ask2]
  {
    assert Stamp(Second.asks, 2000) == [Ask2];
    assert KeepPositive([Ask2]) == [Ask2] by {
      assert [Ask2][..0] == [];
    }
    assert PutAll([], [Ask1]) == [Ask1] by {
      assert [Ask1][..0] == [];
    }
    assert Key(Ask2) !in KeySet([Ask1]) by {
      assert forall o | o in [Ask1] :: o == Ask1;
    }
    MergeSingle([Ask1], Ask2);
  }

  lemma SecondAsksSorted()
    ensures SortLevels(Asks, [Ask1, Ask2]) == [Ask1, Ask2]
  {
    assert [Ask1, Ask2][..1] == [Ask1];
    SortSingle(Asks, Ask1);
  }

  lemma SecondAsks()
    ensures UpdateSide(Asks, [Ask1], Second.asks, 2000) == [Ask1, Ask2]
  {
    SecondAsksMerged();
    SecondAsksSorted();
  }

  /** The first message gives one bid and one ask. The second message's
      zero-size bid is filtered out before the merge, so the old bid stays;
      its new ask is added behind the cheaper one. */
  lemma TwoMessageScenario()
    ensures var b1 := ProcessOrderbookUpdate(EmptyBook, First).book;
      && b1.bids == [Bid1]
      && b1.asks == [Ask1]
    ensures var b1 := ProcessOrderbookUpdate(EmptyBook, First).book;
      var b2 := ProcessOrderbookUpdate(b1, Second);
      && !b2.gapDetected
      && b2.book.bids == [Bid1]
      && b2.book.asks == [Ask1, Ask2]
  {
    FirstBids();
    FirstAsks();
    SecondBids();
    SecondAsks();
  }

  /** A transport disconnect while live sets a reconnect timer for the
      reconnect delay; teardown before it fires cancels it, and the
      cancelled timer never starts a connect. */
  lemma DisconnectThenTeardownScenario()
    ensures var live := Run(Initial, [Mount, TransportConnected]);
      live.status == Connected
    ensures var dropped := Run(Initial, [Mount, TransportConnected, TransportDisconnected]);
      dropped.status == Disconnected && dropped.armed == map[0 := ReconnectDelay]
    ensures var stopped := Run(Initial, [Mount, TransportConnected, TransportDisconnected, Teardown]);
      stopped.armed == map[] && stopped.manual
    ensures var after := Run(Initial, [Mount, TransportConnected, TransportDisconnected, Teardown, TimerFired(0)]);
      after.status == Disconnected && after.attempts == 0 && after.armed == map[]
  {
    var s1 := Step(Initial, Mount);
    var s2 := Step(s1, TransportConnected);
    var s3 := Step(s2, TransportDisconnected);
    var s4 := Step(s3, Teardown);
    assert Run(Initial, [Mount, TransportConnected]) == s2 by {
      assert [Mount, TransportConnected][1..] == [TransportConnected];
      assert [TransportConnected][1..] == [];
    }
    assert s3.armed == map[0 := ReconnectDelay];
    assert Run(Initial, [Mount, TransportConnected, TransportDisconnected]) == s3 by {
      assert [Mount, TransportConnected, TransportDisconnected][1..] == [TransportConnected, TransportDisconnected];
      assert [TransportConnected, TransportDisconnected][1..] == [TransportDisconnected];
      assert [TransportDisconnected][1..] == [];
    }
    assert s4.armed == map[];
    assert Run(Initial, [Mount, TransportConnected, TransportDisconnected, Teardown]) == s4 by {
      assert [Mount, TransportConnected, TransportDisconnected, Teardown][1..] == [TransportConnected, TransportDisconnected, Teardown];
      assert [TransportConnected, TransportDisconnected, Teardown][1..] == [TransportDisconnected, Teardown];
      assert [TransportDisconnected, Teardown][1..] == [Teardown];
      assert [Teardown][1..] == [];
    }
    assert Step(s4, TimerFired(0)) == s4;
    assert Run(Initial, [Mount, TransportConnected, TransportDisconnected, Teardown, TimerFired(0)]) == s4 by {
      var es := [Mount, TransportConnected, TransportDisconnected, Teardown, TimerFired(0)];
      assert es[1..] == [TransportConnected, TransportDisconnected, Teardown, TimerFired(0)];
      assert es[1..][1..] == [TransportDisconnected, Teardown, TimerFired(0)];
      assert es[1..][1..][1..] == [Teardown, TimerFired(0)];
      assert es[1..][1..][1..][1..] == [TimerFired(0)];
      assert es[1..][1..][1..][1..][1..] == [];
    }
  }

  /** Stopping while connected: the status stays `connected` (the failure
      callbacks that follow are ignored), and no reconnect is scheduled. */
  lemma StopWhileConnectedScenario(e: Event)
    requires IsFailure(e)
    ensures var stopped := Step(Run(Initial, [Mount, TransportConnected]), Teardown);
      var after := Step(stopped, e);
      after.status == Connected && after.armed == map[]
  {
    assert Run(Initial, [Mount, TransportConnected]) == Step(Step(Initial, Mount), TransportConnected) by {
      assert [Mount, TransportConnected][1..] == [TransportConnected];
      assert [TransportConnected][1..] == [];
    }
  }
}

=== FILE: sorting.dfy ===
/**
 Sorting one side of the book by numeric price with the side's comparator.
 `Array.prototype.sort` is stable; it is modelled here by a stable
 insertion sort, so levels whose prices compare equal keep their order.
 Nothing below depends on that tie order.
 */
module LevelSort {
  import opened OrderbookTypes
  import opened OrderbookConstants

  /** Which side of the book a sequence of levels belongs to. */
  datatype Side = Bids | Asks

  /** The comparator a side sorts with: bids descending, asks ascending. */
  function Compare(side: Side, a: real, b: real): (r: real)
    ensures r < 0.0 <==> (if side == Bids then a > b else a < b)
    ensures r == 0.0 <==> a == b
  {
    match side
    case Bids => Descending(a, b)
    case Asks => Ascending(a, b)
  }

  /** A level priced `a` may stand before one priced `b` on `side`. */
  predicate InOrder(side: Side, a: real, b: real)
  {
    Compare(side, a, b) <= 0.0
  }

  /** The side's order is a total preorder on prices: better price first. */
  lemma InOrderMeaning(side: Side, a: real, b: real)
    ensures InOrder(side, a, b) <==> (if side == Bids then a >= b else a <= b)
    ensures InOrder(side, a, b) || InOrder(side, b, a)
    ensures InOrder(side, a, b) && InOrder(side, b, a) ==> a == b
  {
  }

  /** Every level stands no later than every level after it. */
  ghost predicate Sorted(side: Side, s: seq<Order>)
  {
    forall i, j :: 0 <= i < j < |s| ==> InOrder(side, PriceValue(s[i]), PriceValue(s[j]))
  }

  /** A level that may stand before every level of a sorted sequence may
      head it. */
  lemma ConsSorted(side: Side, h: Order, t: seq<Order>)
    requires Sorted(side, t)
    requires forall i | 0 <= i < |t| :: InOrder(side, PriceValue(h), PriceValue(t[i]))
    ensures Sorted(side, [h] + t)
  {
    var r := [h] + t;
    forall i, j | 0 <= i < j < |r|
      ensures InOrder(side, PriceValue(r[i]), PriceValue(r[j]))
    {
      if i > 0 {
        assert r[i] == t[i - 1] && r[j] == t[j - 1];
      } else {
        assert r[j] == t[j - 1];
      }
    }
  }

  /** Inserts `x` into sorted `s` after every level it does not beat. */
  function Insert(side: Side, x: Order, s: seq<Order>): (r: seq<Order>)
    requires Sorted(side, s)
    ensures multiset(r) == multiset(s) + multiset{x}
    ensures |r| == |s| + 1
    ensures Sorted(side, r)
  {
    if |s| == 0 then [x]
    else if Compare(side, PriceValue(x), PriceValue(s[0])) < 0.0 then
      InOrderMeaning(side, PriceValue(x), PriceValue(s[0]));
      ConsSorted(side, x, s);
      [x] + s
    else
      assert s == [s[0]] + s[1..];
      var rest := Insert(side, x, s[1..]);
      HeadBeforeInserted(side, x, s, rest);
      ConsSorted(side, s[0], rest);
      [s[0]] + rest
  }

  /** The head of a sorted sequence stands before its tail with `x` added,
      when `x` does not beat it. */
  lemma HeadBeforeInserted(side: Side, x: Order, s: seq<Order>, rest: seq<Order>)
    requires Sorted(side, s) && |s| > 0
    requires Compare(side, PriceValue(x), PriceValue(s[0])) >= 0.0
    requires multiset(rest) == multiset(s[1..]) + multiset{x}
    ensures forall i | 0 <= i < |rest| :: InOrder(side, PriceValue(s[0]), PriceValue(rest[i]))
  {
    InOrderMeaning(side, PriceValue(x), PriceValue(s[0]));
    forall i | 0 <= i < |rest|
      ensures InOrder(side, PriceValue(s[0]), PriceValue(rest[i]))
    {
      assert rest[i] in multiset(rest);
      if rest[i] != x {
        assert rest[i] in multiset(s[1..]);
        var k :| 0 <= k < |s[1..]| && s[1..][k] == rest[i];
        assert s[k + 1] == rest[i];
      }
    }
  }

  /** `levels.sort(comparator)`: a sorted rearrangement of the levels. */
  function SortLevels(side: Side, levels: seq<Order>): (r: seq<Order>)
    ensures multiset(r) == multiset(levels)
    ensures |r| == |levels|
    ensures Sorted(side, r)
  {
    if |levels| == 0 then []
    else
      var init := levels[..|levels| - 1];
      assert levels == init + [levels[|levels| - 1]];
      Insert(side, levels[|levels| - 1], SortLevels(side, init))
  }

  /** After sorting, the first level holds the best price of the side: the
      lowest for asks and the highest for bids. */
  lemma BestPriceFirst(side: Side, levels: seq<Order>)
    requires |levels| > 0
    ensures var r := SortLevels(side, levels);
      forall o | o in levels ::
        if side == Asks then PriceValue(r[0]) <= PriceValue(o)
        else PriceValue(r[0]) >= PriceValue(o)
  {
    var r := SortLevels(side, levels);
    forall o | o in levels
      ensures if side == Asks then PriceValue(r[0]) <= PriceValue(o)
              else PriceValue(r[0]) >= PriceValue(o)
    {
      assert o in multiset(r);
      var k :| 0 <= k < |r| && r[k] == o;
      if k > 0 {
        InOrderMeaning(side, PriceValue(r[0]), PriceValue(o));
      }
    }
  }
}

=== FILE: types.dfy ===
/**
 The shapes of the order book: a wire entry, a price level and an update
 message. They carry no behaviour of their own.
 */
module OrderbookTypes {

  /** A value that may be absent (a ref holding `null`). */
  datatype Option<T> = None | Some(value: T)

  /** A decimal number as it arrives on the wire: its exact text, and the
      number that `parseFloat` reads from it. The text is what the book uses
      as the identity of a price level; the number is what it sorts by. */
  datatype Decimal = Decimal(text: string, value: real)

  /** An opaque point in time (the update's own timestamp). */
  type Time = int

  /** One price level of one side of the book. */
  datatype Order = Order(price: Decimal, size: Decimal, timestamp: Time)

  /** A raw `[price, size]` pair of an update message. */
  datatype OrderEntry = OrderEntry(price: Decimal, size: Decimal)

  /** An update message: a snapshot or a delta, treated alike. */
  datatype OrderbookData = OrderbookData(
    marketId: string,
    bids: seq<OrderEntry>,
    asks: seq<OrderEntry>,
    sequence: int,
    timestamp: Time)

  /** The key a price level is stored under: the exact price text. */
  function Key(o: Order): string
  {
    o.price.text
  }

  /** The number a price level is sorted by. */
  function PriceValue(o: Order): real
  {
    o.price.value
  }
}
